=== FILE: README.md ===
# LLM cost engine, modelled in Dafny

This project models the calculation core of an LLM cost dashboard. The core has three parts:

- **Token estimator** (`estimate_tokens`). It strips the message, then forms a weighted sum: each maximal word run is weighted by its length, each whitespace run and each digit run counts once, and punctuation and "special" characters count per character. The sum is rounded the way Python's `round` rounds and, for a non-empty message, is never below 1. The module is `TokenCalculator`, in `token_calculator.dfy`.
- **Price table and cost formula** (`LLMCostCalculator`). The table is built from the rows of the price sheet and keeps the first row of each model name. `calculate_cost` charges dollars per million tokens and fails on an unknown model. The module is `CostCalculator`, in `cost_calculator.dfy`.
- **Strategy arithmetic** of the comparison views. This covers the single-model daily projection and the routed multi-model strategy. A routed strategy has percentage shares whose last share is derived, per-model query counts, full input context for every model, and a fixed classifier overhead. It also covers the signed difference and percentage between two strategies. The module is `Strategy`, in `strategy.dfy`. The message simulator's default output estimate is in `Simulator`, in `simulator.dfy`.

Failures are values, not exceptions: `Errors.Result` is `Ok(value)` or `Err(error)`. `UnknownModel(name)` stands for the `ValueError` of a failed lookup. `DivisionByZero` stands for a per-query or percentage division by zero.

Weights are kept exactly, in integer twentieths of a token. The weights are 0.5, 1, len/4, 0.1, 0.5, 0.3 and 1, so they become 10, 20, 5·len, 2, 10, 6 and 20. Prices and costs are `real`. The usage pattern's output/input ratio is an integer number of tenths, which is the slider's step. Shares are integers.

On these points the model follows the code as written:

- A non-empty whitespace-only message is estimated as 1 token. The emptiness test comes before `strip`, the stripped text has no runs, and `max(1, …)` still gives 1. Only the empty string gives 0.
- The sum is rounded with Python's `round`, to nearest with ties to even, although the comment at src/token_calculator.py:46 says it rounds up. So 2.5 gives 2, 3.5 gives 4, and 1.25 gives 1.
- Output tokens per query are truncated (`int(avg_input_tokens * avg_output_ratio)`), not rounded.
- The code does not validate prices or usage inputs. The model therefore has no error paths for them. Where a property needs non-negative prices or shares, it takes them as a precondition.

## Model

| member | source | states |
|---|---|---|
| TokenCalculator.IsSpace | src/token_calculator.py:14-21 | whitespace, for `\s` and for `str.strip`, is exactly space, tab, line feed, vertical tab, form feed, carriage return and the separators 0x1C-0x1F |
| TokenCalculator.IsDigit | src/token_calculator.py:19 | `\d` admits exactly the ten characters 0-9 |
| TokenCalculator.IsWordChar | src/token_calculator.py:25 | `\w` admits the letters a-z and A-Z, the digits 0-9 and `_`; no word character is whitespace or punctuation |
| TokenCalculator.IsPunctuation | src/token_calculator.py:20 | the punctuation class admits exactly `.` `,` `!` `?` `;` `:` and `"` |
| TokenCalculator.IsSpecial | src/token_calculator.py:21 | a special character is any character that is neither whitespace nor punctuation nor a word character, plus `_`, the only word character that is also special |
| TokenCalculator.EveryCharacterIsClassified | src/token_calculator.py:18-25 | every character is whitespace, a word character, punctuation or special, so no character goes unweighed |
| TokenCalculator.Strip | src/token_calculator.py:14 | the result is `s` without a leading run and a trailing run of whitespace, and it neither starts nor ends with whitespace; it is empty exactly when `s` is all whitespace |
| TokenCalculator.RoundTwentieths | src/token_calculator.py:47 | the result is the nearest whole token to t/20, within half a token, and the even one of the two at an exact half |
| TokenCalculator.EstimateTokens | src/token_calculator.py:10-47 | the estimate is 0 exactly for the empty string; otherwise it is within half a token of the weighted sum of the stripped text and the even candidate at an exact half, or it is the clamp value 1, which is reached exactly when the sum is below 1.5 tokens |
| TokenCalculator.ScanRuns | src/token_calculator.py:18-38 | one left-to-right pass counts exactly the maximal runs that `re.findall` returns and sums exactly their weights |
| TokenCalculator.ScanCount | src/token_calculator.py:20-21 | one pass counts exactly the characters of the class |
| TokenCalculator.EstimateTokensScan | src/token_calculator.py:10-47 | computing the estimate the way the source does, one pass per pattern followed by the weighted sum, rounding and clamp, gives the estimate of the model for every text |
| TokenCalculator.RunsCoverMatches | src/token_calculator.py:18-25 | written one after the other, the maximal runs are exactly the characters of their class in their order in the text, no more and no fewer; so their lengths sum to the class count |
| TokenCalculator.FindAll | src/token_calculator.py:18-19 | every run found by `re.findall` for a one-or-more class pattern is non-empty and consists only of characters of the class |
| TokenCalculator.Count | src/token_calculator.py:20-21 | a per-character count is at most the text's length, and it is 0 exactly when no character of the text is in the class |
| TokenCalculator.WordWeight | src/token_calculator.py:31-38 | a word weighs at least half a token, and between len/4 tokens and len/4 + 0.5 tokens |
| TokenCalculator.Twentieths | src/token_calculator.py:17-44 | the weighted sum of the empty text is 0, and every non-empty text weighs at least 0.1 token, since each character falls in some class |
| TokenCalculator.WhitespaceOnlyIsOneToken | src/token_calculator.py:10-47 | a non-empty text of whitespace only is estimated as exactly 1 token |
| TokenCalculator.SingleWordEstimate | src/token_calculator.py:31-38 | a single word of letters is estimated from its length bucket alone (0.5, 1 or len/4), rounded and clamped |
| TokenCalculator.HelloIsOneToken | src/token_calculator.py:31-47 | "hello" weighs 1.25 tokens and is estimated as 1 |
| TokenCalculator.TieRoundsDownToEven | src/token_calculator.py:47 | "abcdefghij" weighs 2.5 tokens and is estimated as 2 |
| TokenCalculator.TieRoundsUpToEven | src/token_calculator.py:47 | "abcdefghijklmn" weighs 3.5 tokens and is estimated as 4 |
| TokenCalculator.LettersThenDigits | src/token_calculator.py:19-25 | digits count twice: a word of letters followed by digits weighs the bucket of the whole word plus one digit run |
| TokenCalculator.WordWithDigitsExample | src/token_calculator.py:19-25 | "abc123" weighs 1.5 + 0.5 tokens and is estimated as 2 |
| TokenCalculator.WhitespaceRunCountsOnce | src/token_calculator.py:18-41 | two words separated by a whitespace gap of any length weigh their two buckets plus a single 0.1 |
| TokenCalculator.PunctuationPerCharacter | src/token_calculator.py:20-43 | a text of punctuation only weighs 0.3 per character, not per run |
| TokenCalculator.SpecialPerCharacter | src/token_calculator.py:21-44 | a text of special characters other than `_` weighs 1 per character and nothing else |
| TokenCalculator.UnderscoresCountTwice | src/token_calculator.py:21-25 | underscores count twice: once as one word of their length and once each as a special character |
| CostCalculator.KeepFirst | src/cost_calculator.py:11 | adding a row adds its model name to the table and keeps every existing entry; the row's prices are stored only when its name is new |
| CostCalculator.BuildTable | src/cost_calculator.py:11-16 | the table has exactly one entry per model name of the rows, holding the prices of that name's first row |
| CostCalculator.LaterDuplicateIgnored | src/cost_calculator.py:11 | appending a row whose name is already present leaves the table unchanged |
| CostCalculator.EarlierPricesKept | src/cost_calculator.py:11-16 | rows appended after a sheet never change the prices of a model the sheet already names; they can only add models |
| CostCalculator.CalculateCost | src/cost_calculator.py:22-35 | it fails with `UnknownModel(model)` exactly when the model is not in the table; otherwise cost × 1,000,000 = tokens × price for input and for output, and total = input + output |
| CostCalculator.UnknownModelFails | src/cost_calculator.py:24-25 | a model named by no row gives the error and no partial result, whatever the token counts |
| CostCalculator.MillionInputTokensCostInputPrice | src/cost_calculator.py:28-34 | 1,000,000 input tokens and no output cost exactly the input price, with output cost 0 |
| CostCalculator.MillionOutputTokensCostOutputPrice | src/cost_calculator.py:29-34 | 1,000,000 output tokens and no input cost exactly the output price, with input cost 0 |
| CostCalculator.CostIsAdditive | src/cost_calculator.py:28-34 | cost(a1 + a2, b1 + b2) = cost(a1, b1) + cost(a2, b2) for each of the three components |
| CostCalculator.CostScales | src/cost_calculator.py:28-34 | multiplying both token counts by k multiplies each of the three costs by k |
| CostCalculator.CostIsNonNegative | src/cost_calculator.py:22-35 | with non-negative prices and token counts all three costs are non-negative |
| CostCalculator.CostIsMonotone | src/cost_calculator.py:28-34 | with non-negative prices, more tokens never cost less, in each component |
| CostCalculator.Gpt4Example | src/cost_calculator.py:27-35 | at $30/M in and $60/M out, 500 input and 750 output tokens cost 0.015 + 0.045 = 0.06 |
| Strategy.OutputTokensPerQuery | app.py:121 | the output tokens per query are avg_in × ratio truncated to a whole token |
| Strategy.DailyInputTokens | app.py:118-120 | the day's input is 0 exactly when there are no queries or no input, and divided by the queries it gives back the average input per query |
| Strategy.SingleDaily | app.py:118-122 | it fails exactly on an unknown model; otherwise each daily cost is queries per day times the cost of one query (avg_in input, truncated output) |
| Strategy.Project | app.py:124-126 | annual = 365 × daily and per-query × queries = daily; it fails with DivisionByZero exactly when there are no queries |
| Strategy.Shares | app.py:228-239 | the slider values are kept as the first shares, one derived share is appended, and the shares sum to exactly 100 |
| Strategy.SharesSplitIffSlidersInRange | app.py:228-239 | the shares are non-negative and sum to 100 if and only if every slider stayed within 0 and what the sliders before it left |
| Strategy.EverySplitIsReachable | app.py:228-239 | every non-negative split summing to 100 is produced by some sliders in range |
| Strategy.ModelQueries | app.py:242 | a model's queries are queries × share / 100 truncated toward zero |
| Strategy.ModelQueriesAtMostDaily | app.py:242 | a share from 0 to 100 gets from none to all of the day's queries |
| Strategy.RoutedQueriesWithinDaily | app.py:242 | with the shares a split, the routed models together get at most the day's queries |
| Strategy.RoutedModelCost | app.py:242-247 | it fails exactly on an unknown model; a routed model's input cost is the single-model daily input cost whatever its share, while its output cost × 1,000,000 is the truncated output per query × the model's own truncated query count × the output price; its total is input cost plus output cost |
| Strategy.RoutedOutputAtMostSingle | app.py:243-247 | a routed model's output cost never exceeds its single-model daily output cost |
| Strategy.ClassifierCost | app.py:251-255 | it fails exactly on an unknown classifier; otherwise its daily total is queries × the cost of 100 input and 50 output tokens |
| Strategy.EvenSplitExample | app.py:242-255 | 50% of 100 queries is 50 queries, and the classifier is charged 10000 input and 5000 output tokens |
| Strategy.RoutedCosts | app.py:220-248 | it succeeds exactly when every route names a known model, giving each route's cost in order; otherwise the error names the first unknown model |
| Strategy.MultiDaily | app.py:250-258 | it succeeds exactly when every route and the classifier are known; an unknown route is reported before the classifier, as the first unknown route; the total is the classifier total plus the sum of the routed totals |
| Strategy.TotalCost | app.py:258 | the sum of the routed totals is never negative when no routed total is |
| Strategy.TotalCostConcat | app.py:258 | summing two lists of costs one after the other gives the sum of their sums |
| Strategy.OneRouteIsSinglePlusClassifier | app.py:243-258 | sending 100% to one model costs its single-model daily total plus the classifier total |
| Strategy.MultiAtLeastClassifier | app.py:251-258 | with non-negative prices and shares, a routed strategy costs at least its classifier overhead |
| Strategy.CostPerRoutedQuery | app.py:324-331 | the breakdown's per-query cost fails exactly when the model's truncated query count is 0, which happens whenever queries × share is below 100 |
| Strategy.RoutedQueryLine | app.py:324-331 | a route's breakdown line reports no queries exactly when its truncated query count is 0; otherwise the per-query cost × the query count is the route's daily total |
| Strategy.FullFirstSliderBreaksBreakdown | app.py:228-239 | a first slider of 100 leaves the last model 0%, and for every usage its per-query line divides by zero |
| Strategy.RoutedQueryLineAgrees | app.py:324-331 | the corrected line equals the division wherever the division succeeds, and reports no queries exactly where it fails |
| Strategy.Compare | app.py:142-143 | other + difference = baseline and percent × baseline = 100 × difference; it fails exactly on a zero baseline |
| Strategy.DailyTotal | app.py:118-143 | a plan's daily total exists exactly when every model it names is known; a single-model plan's error names that model, and a routed plan's error is the first unknown route, or else the classifier; a routed total is the classifier total plus the routed totals |
| Strategy.SingleTotalClosedForm | app.py:118-122 | a single-model plan's daily total × 1,000,000 is queries per day × (input tokens × input price + truncated output tokens × output price) |
| Strategy.ComparePlans | app.py:479-482 | it succeeds exactly when both plans are priced and A's total is non-zero; A's error comes before B's, a zero baseline gives DivisionByZero, and on success the result is the comparison of the two daily totals |
| Strategy.CompareAntisymmetric | app.py:142-143 | swapping the two daily totals negates the difference |
| Strategy.CompareSign | app.py:142-143 | the difference is positive exactly when the baseline costs more, and zero exactly when the two cost the same |
| Strategy.ComparePercentBounds | app.py:261-262 | against a positive baseline and a non-negative alternative the percentage is at most 100, and it is non-negative exactly when the alternative is no dearer |
| Strategy.ComparePlansAntisymmetric | app.py:481-482 | for any two plans, single-model or routed, comparing B with A negates the difference of comparing A with B |
| Simulator.LowerChar | app.py:52 | lower-casing changes only the letters A-Z, each to its own lower-case letter, and never leaves an upper-case letter |
| Simulator.Lower | app.py:52 | the lower-cased name has the same length and is lower-cased character by character |
| Simulator.IsGpt4 | app.py:52 | a model is in the GPT-4 family exactly when "gpt-4" occurs at some position of its lower-cased name, which is then at least five characters long |
| Simulator.Contains | app.py:52 | `needle in s` holds exactly when the needle occurs at some position of `s` |
| Simulator.DefaultOutputTokens | app.py:52 | the suggestion is 2 × tokens when the lower-cased name contains "gpt-4"; otherwise it is 1.5 × tokens truncated |
| Simulator.DefaultOutputBounds | app.py:52 | the suggestion lies between the input tokens and twice the input tokens |
| Simulator.DefaultOutputIgnoresCase | app.py:52 | a model name and its lower-cased form get the same suggestion |
| Simulator.MessageDefaults | app.py:51-52 | the input estimate is that of the message and the output suggestion is the model's default for it; it lies between one and two times the estimate, and the estimate is 0 exactly for an empty message |
| Simulator.MessageDefaultsPositive | app.py:51-52 | an empty message suggests 0 and 0; any other message suggests at least 1 input and at least 1 output token |
| Simulator.DefaultOutputExamples | app.py:52 | "GPT-4o" with 10 tokens suggests 20, and "claude-3" with 3 tokens suggests 4 |

## Findings

| source | as written | input that shows it | evidently intended | confidence | as-written member | corrected member |
|---|---|---|---|---|---|---|
| app.py:324-331, app.py:553, app.py:573 | the detailed breakdown of the single-versus-routed view, and both strategy breakdowns of the two-strategy view, divide each model's daily total by its truncated query count `int(queries_per_day * (percentage/100))` | a first slider of 100 gives the last model 0%, or 1 query per day split 50/50 gives 0 queries each; the division raises ZeroDivisionError, and the handler at app.py:591 shows an error in place of the rest of the page | a model that handles no queries gets a line saying so instead of a per-query cost | high for the division; medium for the intended wording; not executed | Strategy.CostPerRoutedQuery, Strategy.FullFirstSliderBreaksBreakdown | Strategy.RoutedQueryLine, Strategy.RoutedQueryLineAgrees |

## Left out

- The Streamlit UI is not modelled: widgets, layout, metric display, currency formatting, and the delta string and delta colour. The `abs(…)` savings figures of the strategy-versus-strategy view are also not modelled. The signed difference and percentage they display are modelled by `Strategy.Compare`.
- Loading the price sheet from Excel (src/data_loader.py), the plotly charts (src/visualizations.py) and the CSS (src/styles.py) are I/O or presentation and are not part of this model.
- The pandas mechanics of the constructor are not modelled: choosing the second column as the model name, `set_index`, `to_dict`, and the debug prints. The table is built from a sequence of (name, input price, output price) rows.
- The single-message cost (app.py:65) is not modelled separately. It is `CostCalculator.CalculateCost` applied to the estimate and the output count the user typed.
- Simulator.Lower: lower-cases only A-Z, while Python's `str.lower` lower-cases all of Unicode. The "gpt-4" test is unaffected, because no non-ASCII character lower-cases to g, p, t, `-` or 4.
- Python's `\w`, `\d` and `\s` match Unicode letters, digits and spaces. The model's character classes are the ASCII ones. A non-ASCII character is only ever special.
- Floating point is not modelled. Costs are exact reals. The output ratio is exact tenths.
- Strategy.ModelQueries: computes queries × share / 100 exactly. The source computes it in IEEE-754 doubles as `int(queries_per_day * (percentage / 100))`. That can come out one lower; for example 100 queries at 29% gives 28 in doubles. The same applies to `Strategy.OutputTokensPerQuery` when a product lands just below a whole number.
- Strategy.OutputTokensPerQuery: the ratio is a whole number of tenths, as the slider's step makes it. Ratios that are not multiples of 0.1 are not represented.
- The UI limits are not modelled: 2 to 5 models, a queries-per-day minimum of 1, and the slider ranges. The strategy functions accept any sequence of routes and any natural query count. A zero query count reaches the `DivisionByZero` error of `Strategy.Project`, and a zero baseline reaches the error of `Strategy.Compare`.
- The code has no validation of negative or missing prices, so the model has no error paths for them. Properties that need non-negative prices or shares state that as a precondition.

=== FILE: cost_calculator.dfy ===
/**
  The price table and the cost formula of `LLMCostCalculator`.

  Prices are dollars per million tokens. The table is built once from the rows
  of the price sheet, keeping the first row of every model name, and is never
  changed afterwards; a cost query either names a model of the table or fails.
*/
module CostCalculator {
  import opened Errors

  const TokensPerMillion: real := 1000000.0

  /** One row of the price sheet: the model name and its two prices. */
  datatype PriceRow = PriceRow(model: string, inputPrice: real, outputPrice: real)

  /** Input and output price of one model, in $ per million tokens. */
  datatype Prices = Prices(input: real, output: real)

  type PriceTable = map<string, Prices>

  /** The three numbers `calculate_cost` returns. */
  datatype CostResult = CostResult(inputCost: real, outputCost: real, totalCost: real)

  function PricesOf(row: PriceRow): Prices {
    Prices(row.inputPrice, row.outputPrice)
  }

  /** The model names that occur in `rows`. */
  function Models(rows: seq<PriceRow>): set<string> {
    set i | 0 <= i < |rows| :: rows[i].model
  }

  /** Row `i` is the first row with its model name. */
  predicate IsFirstOccurrence(rows: seq<PriceRow>, i: int) {
    0 <= i < |rows| && forall j :: 0 <= j < i ==> rows[j].model != rows[i].model
  }

  /** `table` has one entry per model name of `rows`, holding the prices of the
      first row with that name. */
  ghost predicate IsFirstTable(rows: seq<PriceRow>, table: PriceTable) {
    && (forall i :: IsFirstOccurrence(rows, i) ==> rows[i].model in table && table[rows[i].model] == PricesOf(rows[i]))
    && table.Keys == Models(rows)
  }

  /** Adds a row's prices unless its model name is already in the table. */
  function KeepFirst(table: PriceTable, row: PriceRow): (r: PriceTable)
    ensures r.Keys == table.Keys + {row.model}
    ensures forall m :: m in table ==> r[m] == table[m]
    ensures row.model !in table ==> r[row.model] == PricesOf(row)
  {
    if row.model in table then table else table[row.model := PricesOf(row)]
  }

  /** The constructor's `drop_duplicates` on the model column followed by
      indexing by model: one entry per model name, holding the prices of the
      first row with that name. */
  function BuildTable(rows: seq<PriceRow>): (table: PriceTable)
    ensures forall i :: IsFirstOccurrence(rows, i) ==> rows[i].model in table && table[rows[i].model] == PricesOf(rows[i])
    ensures table.Keys == Models(rows)
    decreases |rows|
  {
    if |rows| == 0 then map[]
    else
      var table := BuildTable(rows[..|rows| - 1]);
      KeepFirstStep(rows, table);
      KeepFirst(table, rows[|rows| - 1])
  }

  /** Adding one more row to the table of the rows before it keeps the
      first-occurrence table: the row is ignored when its name is known. */
  lemma KeepFirstStep(rows: seq<PriceRow>, table: PriceTable)
    requires |rows| > 0
    requires IsFirstTable(rows[..|rows| - 1], table)
    ensures IsFirstTable(rows, KeepFirst(table, rows[|rows| - 1]))
  {
    var init := rows[..|rows| - 1];
    var result := KeepFirst(table, rows[|rows| - 1]);
    ModelsSnoc(rows);
    assert result.Keys == Models(rows);
    forall i | IsFirstOccurrence(rows, i)
      ensures rows[i].model in result && result[rows[i].model] == PricesOf(rows[i])
    {
      FirstOccurrenceSnoc(rows, i);
      if i < |init| {
        assert IsFirstOccurrence(init, i);
        assert init[i].model in Models(init);
      }
    }
  }

  lemma ModelsSnoc(rows: seq<PriceRow>)
    requires |rows| > 0
    ensures Models(rows) == Models(rows[..|rows| - 1]) + {rows[|rows| - 1].model}
  {
    var init := rows[..|rows| - 1];
    forall m | m in Models(rows)
      ensures m in Models(init) + {rows[|rows| - 1].model}
    {
      var i :| 0 <= i < |rows| && rows[i].model == m;
      if i < |init| {
        assert init[i] == rows[i];
      }
    }
    forall m | m in Models(init)
      ensures m in Models(rows)
    {
      var i :| 0 <= i < |init| && init[i].model == m;
      assert rows[i] == init[i];
    }
    assert rows[|rows| - 1].model in Models(rows);
  }

  /** A first occurrence in `rows` is either the last row, whose name does not
      occur before it, or a first occurrence among the rows before the last. */
  lemma FirstOccurrenceSnoc(rows: seq<PriceRow>, i: int)
    requires IsFirstOccurrence(rows, i)
    ensures i < |rows| - 1 ==> IsFirstOccurrence(rows[..|rows| - 1], i) && rows[..|rows| - 1][i] == rows[i]
    ensures i == |rows| - 1 ==> rows[i].model !in Models(rows[..|rows| - 1])
  {
    var init := rows[..|rows| - 1];
    if i < |init| {
      assert forall j :: 0 <= j < i ==> init[j] == rows[j];
    } else {
      forall k | 0 <= k < |init|
        ensures init[k].model != rows[i].model
      {
        assert init[k] == rows[k];
      }
    }
  }

  /** `calculate_cost`: the cost of the given token counts at the model's prices,
      or `UnknownModel` when the table has no such model. Token counts are not
      validated by the source, so any integers are accepted. */
  function CalculateCost(table: PriceTable, model: string, inputTokens: int, outputTokens: int): (r: Result<CostResult>)
    ensures r.Err? <==> model !in table
    ensures r.Err? ==> r.error == UnknownModel(model)
    ensures r.Ok? ==> r.value.totalCost == r.value.inputCost + r.value.outputCost
    ensures r.Ok? ==> r.value.inputCost * TokensPerMillion == inputTokens as real * table[model].input
    ensures r.Ok? ==> r.value.outputCost * TokensPerMillion == outputTokens as real * table[model].output
  {
    if model !in table then Err(UnknownModel(model))
    else
      var prices := table[model];
      var inputCost := inputTokens as real * prices.input / TokensPerMillion;
      var outputCost := outputTokens as real * prices.output / TokensPerMillion;
      Ok(CostResult(inputCost, outputCost, inputCost + outputCost))
  }

  // ---------------------------------------------------------------------------
  // Properties
  // ---------------------------------------------------------------------------

  /** A million input tokens cost exactly the input price, and nothing else. */
  lemma MillionInputTokensCostInputPrice(table: PriceTable, model: string)
    requires model in table
    ensures CalculateCost(table, model, 1000000, 0)
            == Ok(CostResult(table[model].input, 0.0, table[model].input))
  {
  }

  /** A million output tokens cost exactly the output price, and nothing else. */
  lemma MillionOutputTokensCostOutputPrice(table: PriceTable, model: string)
    requires model in table
    ensures CalculateCost(table, model, 0, 1000000)
            == Ok(CostResult(0.0, table[model].output, table[model].output))
  {
  }

  /** The cost is additive in the token counts, component by component. */
  lemma CostIsAdditive(table: PriceTable, model: string, in1: int, out1: int, in2: int, out2: int)
    requires model in table
    ensures var c1 := CalculateCost(table, model, in1, out1).value;
            var c2 := CalculateCost(table, model, in2, out2).value;
            var c := CalculateCost(table, model, in1 + in2, out1 + out2).value;
            && c.inputCost == c1.inputCost + c2.inputCost
            && c.outputCost == c1.outputCost + c2.outputCost
            && c.totalCost == c1.totalCost + c2.totalCost
  {
  }

  /** Scaling both token counts by `k` scales every cost by `k`. */
  lemma CostScales(table: PriceTable, model: string, k: int, inputTokens: int, outputTokens: int)
    requires model in table
    ensures var c := CalculateCost(table, model, inputTokens, outputTokens).value;
            var ck := CalculateCost(table, model, k * inputTokens, k * outputTokens).value;
            && ck.inputCost == k as real * c.inputCost
            && ck.outputCost == k as real * c.outputCost
            && ck.totalCost == k as real * c.totalCost
  {
    var prices := table[model];
    assert (k * inputTokens) as real * prices.input == k as real * (inputTokens as real * prices.input);
    assert (k * outputTokens) as real * prices.output == k as real * (outputTokens as real * prices.output);
  }

  /** With non-negative prices and token counts every cost is non-negative. */
  lemma CostIsNonNegative(table: PriceTable, model: string, inputTokens: int, outputTokens: int)
    requires model in table
    requires table[model].input >= 0.0 && table[model].output >= 0.0
    requires inputTokens >= 0 && outputTokens >= 0
    ensures var c := CalculateCost(table, model, inputTokens, outputTokens).value;
            c.inputCost >= 0.0 && c.outputCost >= 0.0 && c.totalCost >= 0.0
  {
  }

  /** More tokens never cost less when prices are non-negative. */
  lemma CostIsMonotone(table: PriceTable, model: string, in1: int, out1: int, in2: int, out2: int)
    requires model in table
    requires table[model].input >= 0.0 && table[model].output >= 0.0
    requires in1 <= in2 && out1 <= out2
    ensures var c1 := CalculateCost(table, model, in1, out1).value;
            var c2 := CalculateCost(table, model, in2, out2).value;
            c1.inputCost <= c2.inputCost && c1.outputCost <= c2.outputCost && c1.totalCost <= c2.totalCost
  {
    CostIsAdditive(table, model, in1, out1, in2 - in1, out2 - out1);
    CostIsNonNegative(table, model, in2 - in1, out2 - out1);
  }

  /** The table built from a sheet where "gpt-4" costs $30/M input and $60/M
      output prices 500 input and 750 output tokens at 0.015 + 0.045 = 0.06. */
  lemma Gpt4Example(rows: seq<PriceRow>)
    requires |rows| > 0 && rows[0] == PriceRow("gpt-4", 30.0, 60.0)
    ensures CalculateCost(BuildTable(rows), "gpt-4", 500, 750) == Ok(CostResult(0.015, 0.045, 0.06))
  {
    assert IsFirstOccurrence(rows, 0);
  }

  /** Asking for a model that no row names fails, with no partial result. */
  lemma UnknownModelFails(rows: seq<PriceRow>, model: string, inputTokens: int, outputTokens: int)
    requires forall i :: 0 <= i < |rows| ==> rows[i].model != model
    ensures CalculateCost(BuildTable(rows), model, inputTokens, outputTokens) == Err(UnknownModel(model))
  {
  }

  /** Rows after the first occurrence of a name never change its prices:
      appending a row with a name already present leaves the table unchanged. */
  lemma {:induction false} LaterDuplicateIgnored(rows: seq<PriceRow>, row: PriceRow)
    requires row.model in Models(rows)
    ensures BuildTable(rows + [row]) == BuildTable(rows)
  {
    assert (rows + [row])[..|rows|] == rows;
  }

  /** Rows appended after a sheet never change the prices of a model the sheet
      already names; they can only add models. */
  lemma {:induction false} EarlierPricesKept(rows: seq<PriceRow>, more: seq<PriceRow>)
    ensures forall m :: m in BuildTable(rows) ==>
              m in BuildTable(rows + more) && BuildTable(rows + more)[m] == BuildTable(rows)[m]
    decreases |more|
  {
    if |more| > 0 {
      var fewer := more[..|more| - 1];
      var last := more[|more| - 1];
      EarlierPricesKept(rows, fewer);
      assert rows + more == (rows + fewer) + [last];
      BuildTableSnoc(rows + fewer, last);
    } else {
      assert rows + more == rows;
    }
  }

  /** Building from one more row is one `KeepFirst` step. */
  lemma BuildTableSnoc(rows: seq<PriceRow>, row: PriceRow)
    ensures BuildTable(rows + [row]) == KeepFirst(BuildTable(rows), row)
  {
    assert (rows + [row])[..|rows|] == rows;
  }
}

=== FILE: errors.dfy ===
/** The failures the cost engine reports to its caller instead of a value. */
module Errors {

  /** `UnknownModel` is the ValueError raised by a price lookup miss;
      `DivisionByZero` is the ZeroDivisionError of a per-query or
      percentage division whose divisor is zero. */
  datatype Error = UnknownModel(model: string) | DivisionByZero

  /** A value, or the error that replaced it: no partial result is ever returned.
      The members below let `:-` pass an error on unchanged. */
  datatype Result<T> = Ok(value: T) | Err(error: Error) {
    predicate IsFailure() {
      Err?
    }

    function PropagateFailure<U>(): Result<U>
      requires Err?
    {
      Err(error)
    }

    function Extract(): T
      requires Ok?
    {
      value
    }
  }
}

=== FILE: simulator.dfy ===
/**
  The defaults of the single-message simulator: the input tokens estimated
  from the message, and the suggested output tokens, twice the input for the
  GPT-4 family and one and a half times the input otherwise.
*/
module Simulator {
  import opened TokenCalculator

  const Gpt4Marker: string := "gpt-4"

  /** `str.lower` on one ASCII character: only the letters A-Z change, each to
      its lower-case letter. */
  function LowerChar(c: char): (r: char)
    ensures !('A' <= r <= 'Z')
    ensures r != c ==> 'A' <= c <= 'Z'
    ensures 'A' <= c <= 'Z' ==> r == "abcdefghijklmnopqrstuvwxyz"[c as int - 'A' as int]
  {
    if 'A' <= c <= 'Z' then (c as int + 32) as char else c
  }

  function Lower(s: string): (r: string)
    ensures |r| == |s|
    ensures forall i :: 0 <= i < |s| ==> r[i] == LowerChar(s[i])
  {
    seq(|s|, i requires 0 <= i < |s| => LowerChar(s[i]))
  }

  /** `needle` occurs in `s` starting at position `i`. */
  predicate OccursAt(s: string, needle: string, i: int) {
    0 <= i && i + |needle| <= |s| && s[i..i + |needle|] == needle
  }

  /** Python's `needle in s` on strings. */
  function Contains(s: string, needle: string): (b: bool)
    ensures b <==> exists i :: OccursAt(s, needle, i)
    decreases |s|
  {
    if |needle| > |s| then
      assert forall i :: !OccursAt(s, needle, i);
      false
    else if s[..|needle|] == needle then
      assert OccursAt(s, needle, 0);
      true
    else
      var rest := Contains(s[1..], needle);
      assert rest <==> exists i :: OccursAt(s, needle, i) by {
        forall i | OccursAt(s[1..], needle, i)
          ensures OccursAt(s, needle, i + 1)
        {
          assert s[1..][i..i + |needle|] == s[i + 1..i + 1 + |needle|];
        }
        assert s[0..|needle|] == s[..|needle|];
        forall i | OccursAt(s, needle, i)
          ensures i >= 1 && OccursAt(s[1..], needle, i - 1)
        {
          assert s[1..][i - 1..i - 1 + |needle|] == s[i..i + |needle|];
        }
      }
      rest
  }

  /** The model's lower-cased name has "gpt-4" at some position, so the name
      is at least five characters long. */
  predicate IsGpt4(model: string): (b: bool)
    ensures b <==> exists i :: OccursAt(Lower(model), Gpt4Marker, i)
    ensures b ==> |model| >= |Gpt4Marker|
  {
    Contains(Lower(model), Gpt4Marker)
  }

  /** The suggested output tokens: `int(tokens * 2)` for a model whose lower-cased
      name contains "gpt-4", `int(tokens * 1.5)` otherwise. */
  function DefaultOutputTokens(model: string, inputTokens: nat): (n: nat)
    ensures IsGpt4(model) ==> n == 2 * inputTokens
    ensures !IsGpt4(model) ==> 2 * n <= 3 * inputTokens < 2 * n + 2
  {
    if IsGpt4(model) then 2 * inputTokens else (3 * inputTokens) / 2
  }

  /** The two numbers the simulator starts from for a message. */
  datatype Defaults = Defaults(inputTokens: nat, outputTokens: nat)

  /** The estimate of the message and the output suggested for it: an empty
      message suggests nothing, and the suggestion is between one and two
      times the estimate. */
  function MessageDefaults(model: string, message: string): (d: Defaults)
    ensures d.inputTokens == EstimateTokens(message)
    ensures d.outputTokens == DefaultOutputTokens(model, d.inputTokens)
    ensures d.inputTokens <= d.outputTokens <= 2 * d.inputTokens
    ensures d.inputTokens == 0 <==> |message| == 0
  {
    var tokens := EstimateTokens(message);
    Defaults(tokens, DefaultOutputTokens(model, tokens))
  }

  // ---------------------------------------------------------------------------
  // Properties
  // ---------------------------------------------------------------------------

  /** The suggestion lies between the input and twice the input. */
  lemma DefaultOutputBounds(model: string, inputTokens: nat)
    ensures inputTokens <= DefaultOutputTokens(model, inputTokens) <= 2 * inputTokens
  {
  }

  lemma LowerIsIdempotent(s: string)
    ensures Lower(Lower(s)) == Lower(s)
  {
  }

  /** The model test ignores case: a name and its lower-cased form get the same suggestion. */
  lemma DefaultOutputIgnoresCase(model: string, inputTokens: nat)
    ensures DefaultOutputTokens(Lower(model), inputTokens) == DefaultOutputTokens(model, inputTokens)
  {
    LowerIsIdempotent(model);
  }

  /** An empty message suggests nothing; any other message suggests at least one
      input token and at least one output token. */
  lemma MessageDefaultsPositive(model: string, message: string)
    ensures |message| == 0 ==> MessageDefaults(model, message) == Defaults(0, 0)
    ensures |message| > 0 ==> MessageDefaults(model, message).inputTokens >= 1
                              && MessageDefaults(model, message).outputTokens >= 1
  {
  }

  /** "GPT-4o" is in the GPT-4 family whatever its case; 3 tokens for another model suggest 4. */
  lemma DefaultOutputExamples()
    ensures DefaultOutputTokens("GPT-4o", 10) == 20
    ensures DefaultOutputTokens("claude-3", 3) == 4
  {
    assert Lower("GPT-4o") == "gpt-4o";
    assert OccursAt("gpt-4o", Gpt4Marker, 0);
    var other := Lower("claude-3");
    assert other == "claude-3";
    FirstCharAbsent(other, Gpt4Marker);
  }

  /** A string in which the needle's first character never appears does not contain the needle. */
  lemma FirstCharAbsent(s: string, needle: string)
    requires |needle| > 0
    requires forall i :: 0 <= i < |s| ==> s[i] != needle[0]
    ensures !Contains(s, needle)
  {
    forall i | 0 <= i < |s|
      ensures !OccursAt(s, needle, i)
    {
      if i + |needle| <= |s| {
        assert s[i..i + |needle|][0] == s[i];
      }
    }
  }
}

=== FILE: strategy.dfy ===
/**
  The strategy arithmetic of the comparison views: the single-model daily
  projection, the routed multi-model strategy (a classifier that sees every
  query plus specialist models that each answer a percentage share), and the
  signed difference between two strategies' daily totals.
*/
module Strategy {
  import opened Errors
  import opened CostCalculator

  const DaysPerYear: real := 365.0
  const ClassifierInputTokens: nat := 100   // assumed tokens per classification
  const ClassifierOutputTokens: nat := 50   // assumed tokens per routing decision

  /** The daily usage pattern. The output/input ratio is kept in tenths
      (1.5 is 15), the step of the slider that sets it. */
  datatype Usage = Usage(queriesPerDay: nat, avgInputTokens: nat, outputRatioTenths: nat)

  /** `int(avg_input_tokens * avg_output_ratio)`: the product truncated to a whole token count. */
  function OutputTokensPerQuery(u: Usage): (n: nat)
    ensures 10 * n <= u.avgInputTokens * u.outputRatioTenths < 10 * (n + 1)
  {
    (u.avgInputTokens * u.outputRatioTenths) / 10
  }

  /** The whole day's input: every query brings the average input. */
  function DailyInputTokens(u: Usage): (n: nat)
    ensures n == 0 <==> u.queriesPerDay == 0 || u.avgInputTokens == 0
    ensures u.queriesPerDay > 0 ==> n / u.queriesPerDay == u.avgInputTokens
  {
    MulDivCancel(u.avgInputTokens, u.queriesPerDay);
    u.avgInputTokens * u.queriesPerDay
  }

  lemma MulDivCancel(a: nat, b: nat)
    ensures b > 0 ==> (a * b) / b == a
  {
    if b > 0 {
      var q, r := (a * b) / b, (a * b) % b;
      var d := a - q;
      assert d * b == r;
      if d >= 1 {
        MulAtLeast(d, b);
      } else if d <= -1 {
        MulAtLeast(-d, b);
      }
    }
  }

  lemma MulAtLeast(d: int, b: int)
    requires d >= 1 && b > 0
    ensures d * b >= b
  {
  }

  // ---------------------------------------------------------------------------
  // Single model
  // ---------------------------------------------------------------------------

  /** The daily cost of answering every query with one model: the whole day's
      input, and the truncated per-query output times the number of queries. */
  function SingleDaily(table: PriceTable, model: string, u: Usage): (r: Result<CostResult>)
    ensures r.Err? <==> model !in table
    ensures r.Err? ==> r.error == UnknownModel(model)
    ensures r.Ok? ==>
              var one := CalculateCost(table, model, u.avgInputTokens, OutputTokensPerQuery(u)).value;
              && r.value.inputCost == u.queriesPerDay as real * one.inputCost
              && r.value.outputCost == u.queriesPerDay as real * one.outputCost
              && r.value.totalCost == u.queriesPerDay as real * one.totalCost
  {
    var r := CalculateCost(table, model, DailyInputTokens(u), OutputTokensPerQuery(u) * u.queriesPerDay);
    if model !in table then r
    else
      CostScales(table, model, u.queriesPerDay, u.avgInputTokens, OutputTokensPerQuery(u));
      assert DailyInputTokens(u) == u.queriesPerDay * u.avgInputTokens;
      r
  }

  /** The three figures shown for a daily cost. */
  datatype Projection = Projection(daily: real, annual: real, perQuery: real)

  /** Annual cost (365 days) and cost per query of a daily cost; the per-query
      division fails when there are no queries. */
  function Project(daily: real, queriesPerDay: nat): (r: Result<Projection>)
    ensures r.Err? <==> queriesPerDay == 0
    ensures r.Err? ==> r.error == DivisionByZero
    ensures r.Ok? ==> r.value.daily == daily && r.value.annual == DaysPerYear * daily
    ensures r.Ok? ==> r.value.perQuery * queriesPerDay as real == daily
  {
    if queriesPerDay == 0 then Err(DivisionByZero)
    else Ok(Projection(daily, DaysPerYear * daily, daily / queriesPerDay as real))
  }

  // ---------------------------------------------------------------------------
  // Percentage shares
  // ---------------------------------------------------------------------------

  function Sum(xs: seq<int>): int
    decreases |xs|
  {
    if |xs| == 0 then 0 else Sum(xs[..|xs| - 1]) + xs[|xs| - 1]
  }

  /** Every slider value lies in its slider's range: from 0 to what the sliders
      before it have left of 100. */
  predicate SlidersInRange(sliders: seq<int>) {
    forall i :: 0 <= i < |sliders| ==> 0 <= sliders[i] <= 100 - Sum(sliders[..i])
  }

  /** A split of the traffic: at least one share, none negative, summing to 100. */
  predicate IsSplit(shares: seq<int>) {
    && |shares| > 0
    && (forall i :: 0 <= i < |shares| ==> shares[i] >= 0)
    && Sum(shares) == 100
  }

  /** The percentages of the models: the slider values for all models but the
      last, and for the last whatever the others leave of 100. */
  function Shares(sliders: seq<int>): (shares: seq<int>)
    ensures |shares| == |sliders| + 1
    ensures shares[..|sliders|] == sliders
    ensures Sum(shares) == 100
  {
    var shares := sliders + [100 - Sum(sliders)];
    assert shares[..|sliders|] == sliders;
    shares
  }

  lemma {:induction false} SumPrefixAtMostSum(xs: seq<int>, k: nat)
    requires k <= |xs|
    requires forall i :: 0 <= i < |xs| ==> xs[i] >= 0
    ensures Sum(xs[..k]) <= Sum(xs)
    decreases |xs|
  {
    if k < |xs| {
      var init := xs[..|xs| - 1];
      SumPrefixAtMostSum(init, k);
      assert init[..k] == xs[..k];
    } else {
      assert xs[..k] == xs;
    }
  }

  /** The derived shares are a split exactly when every slider stayed in its range. */
  lemma SharesSplitIffSlidersInRange(sliders: seq<int>)
    ensures IsSplit(Shares(sliders)) <==> SlidersInRange(sliders)
  {
    var shares := Shares(sliders);
    var n := |sliders|;
    if SlidersInRange(sliders) {
      if n > 0 {
        assert sliders[..n - 1] + [sliders[n - 1]] == sliders;
        assert sliders[n - 1] <= 100 - Sum(sliders[..n - 1]);
      }
      forall i | 0 <= i < |shares|
        ensures shares[i] >= 0
      {
        if i < n {
          assert shares[i] == shares[..n][i];
        }
      }
    }
    if IsSplit(shares) {
      forall i | 0 <= i < n
        ensures 0 <= sliders[i] <= 100 - Sum(sliders[..i])
      {
        assert shares[i] == shares[..n][i] == sliders[i];
        SumPrefixAtMostSum(shares, i + 1);
        assert shares[..i + 1][..i] == sliders[..i];
      }
    }
  }

  /** Every split can be entered with the sliders: its first shares are slider
      values in range, and the last is the derived one. */
  lemma EverySplitIsReachable(shares: seq<int>)
    requires IsSplit(shares)
    ensures SlidersInRange(shares[..|shares| - 1])
    ensures Shares(shares[..|shares| - 1]) == shares
  {
    var sliders := shares[..|shares| - 1];
    assert sliders + [shares[|shares| - 1]] == shares;
    SharesSplitIffSlidersInRange(sliders);
  }

  // ---------------------------------------------------------------------------
  // Routed multi-model strategy
  // ---------------------------------------------------------------------------

  /** A specialist model and the percentage of the queries routed to it. */
  datatype Route = Route(model: string, share: int)

  function SharesOf(routes: seq<Route>): (shares: seq<int>)
    ensures |shares| == |routes|
    ensures forall i :: 0 <= i < |routes| ==> shares[i] == routes[i].share
  {
    seq(|routes|, i requires 0 <= i < |routes| => routes[i].share)
  }

  /** `int(queries_per_day * (percentage / 100))`: the model's share of the
      day's queries, truncated toward zero. */
  function ModelQueries(queriesPerDay: nat, share: int): (q: int)
    ensures share >= 0 ==> 0 <= q && 100 * q <= queriesPerDay * share < 100 * (q + 1)
    ensures share < 0 ==> q <= 0 && -100 * q <= -(queriesPerDay * share) < -100 * (q - 1)
  {
    var x := queriesPerDay * share;
    if x >= 0 then x / 100 else -((-x) / 100)
  }

  /** The cost of one routed model: it is charged the full day's input context,
      but output only for the queries routed to it. */
  function RoutedModelCost(table: PriceTable, u: Usage, route: Route): (r: Result<CostResult>)
    ensures r.Err? <==> route.model !in table
    ensures r.Err? ==> r.error == UnknownModel(route.model)
    ensures r.Ok? ==> r.value.inputCost == SingleDaily(table, route.model, u).value.inputCost
    ensures r.Ok? ==> r.value.outputCost * TokensPerMillion
                      == (OutputTokensPerQuery(u) * ModelQueries(u.queriesPerDay, route.share)) as real
                         * table[route.model].output
    ensures r.Ok? ==> r.value.totalCost == r.value.inputCost + r.value.outputCost
  {
    CalculateCost(table, route.model, DailyInputTokens(u),
                  OutputTokensPerQuery(u) * ModelQueries(u.queriesPerDay, route.share))
  }

  /** The classifier is charged 100 input and 50 output tokens for every query,
      whatever the routes and shares. */
  function ClassifierCost(table: PriceTable, classifier: string, queriesPerDay: nat): (r: Result<CostResult>)
    ensures r.Err? <==> classifier !in table
    ensures r.Err? ==> r.error == UnknownModel(classifier)
    ensures r.Ok? ==>
              var one := CalculateCost(table, classifier, ClassifierInputTokens, ClassifierOutputTokens).value;
              r.value.totalCost == queriesPerDay as real * one.totalCost
  {
    var r := CalculateCost(table, classifier, ClassifierInputTokens * queriesPerDay, ClassifierOutputTokens * queriesPerDay);
    if classifier !in table then r
    else
      CostScales(table, classifier, queriesPerDay, ClassifierInputTokens, ClassifierOutputTokens);
      r
  }

  /** Every route names a model of the table. */
  predicate AllKnown(table: PriceTable, routes: seq<Route>) {
    forall i :: 0 <= i < |routes| ==> routes[i].model in table
  }

  /** The per-model costs in route order; the first unknown model is the error. */
  function RoutedCosts(table: PriceTable, u: Usage, routes: seq<Route>): (r: Result<seq<CostResult>>)
    ensures r.Ok? <==> AllKnown(table, routes)
    ensures r.Ok? ==> |r.value| == |routes|
    ensures r.Ok? ==> forall i :: 0 <= i < |routes| ==> RoutedModelCost(table, u, routes[i]) == Ok(r.value[i])
    ensures r.Err? ==> exists i :: && 0 <= i < |routes|
                                   && r.error == UnknownModel(routes[i].model)
                                   && routes[i].model !in table
                                   && AllKnown(table, routes[..i])
    decreases |routes|
  {
    if |routes| == 0 then Ok([])
    else
      match RoutedModelCost(table, u, routes[0])
      case Err(e) =>
        assert AllKnown(table, routes[..0]);
        Err(e)
      case Ok(c) =>
        match RoutedCosts(table, u, routes[1..])
        case Err(e) =>
          assert exists i :: && 0 <= i < |routes|
                             && e == UnknownModel(routes[i].model)
                             && routes[i].model !in table
                             && AllKnown(table, routes[..i]) by {
            var k :| && 0 <= k < |routes[1..]|
                     && e == UnknownModel(routes[1..][k].model)
                     && routes[1..][k].model !in table
                     && AllKnown(table, routes[1..][..k]);
            assert routes[k + 1] == routes[1..][k];
            var before := routes[..k + 1];
            var tail := routes[1..][..k];
            forall j | 0 <= j < |before|
              ensures before[j].model in table
            {
              if j > 0 {
                assert before[j] == tail[j - 1];
              }
            }
          }
          Err(e)
        case Ok(cs) =>
          assert forall i :: 1 <= i < |routes| ==> routes[i] == routes[1..][i - 1];
          Ok([c] + cs)
  }

  /** Sum of the total costs, as `sum(cost['total_cost'] for cost in costs)`:
      never negative when no cost is. */
  function TotalCost(costs: seq<CostResult>): (t: real)
    ensures (forall i :: 0 <= i < |costs| ==> costs[i].totalCost >= 0.0) ==> t >= 0.0
    decreases |costs|
  {
    if |costs| == 0 then 0.0
    else
      assert forall i :: 1 <= i < |costs| ==> costs[1..][i - 1] == costs[i];
      costs[0].totalCost + TotalCost(costs[1..])
  }

  /** The parts of a routed strategy's daily cost. */
  datatype MultiCost = MultiCost(classifier: CostResult, routes: seq<CostResult>, total: real)

  /** The daily cost of a routed strategy: the classifier's cost plus the cost
      of every routed model. Routed models are priced first, in order, then the
      classifier, so the first unknown name in that order is the error. */
  function MultiDaily(table: PriceTable, u: Usage, classifier: string, routes: seq<Route>): (r: Result<MultiCost>)
    ensures r.Ok? <==> AllKnown(table, routes) && classifier in table
    ensures r.Err? && !AllKnown(table, routes) ==> r.error == RoutedCosts(table, u, routes).error
    ensures r.Err? && AllKnown(table, routes) ==> r.error == UnknownModel(classifier)
    ensures r.Ok? ==> ClassifierCost(table, classifier, u.queriesPerDay) == Ok(r.value.classifier)
    ensures r.Ok? ==> RoutedCosts(table, u, routes) == Ok(r.value.routes)
    ensures r.Ok? ==> r.value.total == r.value.classifier.totalCost + TotalCost(r.value.routes)
  {
    var costs :- RoutedCosts(table, u, routes);
    var c :- ClassifierCost(table, classifier, u.queriesPerDay);
    Ok(MultiCost(c, costs, c.totalCost + TotalCost(costs)))
  }

  /** The per-query cost line of the detailed breakdown: a route that receives
      no queries makes the division fail. */
  function CostPerRoutedQuery(u: Usage, route: Route, cost: CostResult): (r: Result<real>)
    ensures r.Err? <==> -100 < u.queriesPerDay * route.share < 100
    ensures r.Err? ==> r.error == DivisionByZero
    ensures r.Ok? ==> r.value * ModelQueries(u.queriesPerDay, route.share) as real == cost.totalCost
  {
    var queries := ModelQueries(u.queriesPerDay, route.share);
    if queries == 0 then Err(DivisionByZero) else Ok(cost.totalCost / queries as real)
  }

  /** A line of the detailed breakdown: the cost per query of a route, or the
      note that the route receives no queries. */
  datatype PerQueryLine = PerQuery(cost: real) | NoQueries

  /** The breakdown line as evidently intended: a route whose truncated query
      count is 0 reports that instead of dividing by zero. */
  function RoutedQueryLine(u: Usage, route: Route, cost: CostResult): (line: PerQueryLine)
    ensures line.NoQueries? <==> ModelQueries(u.queriesPerDay, route.share) == 0
    ensures line.PerQuery? ==> line.cost * ModelQueries(u.queriesPerDay, route.share) as real == cost.totalCost
  {
    var queries := ModelQueries(u.queriesPerDay, route.share);
    if queries == 0 then NoQueries else PerQuery(cost.totalCost / queries as real)
  }

  /** Setting the first of two sliders to 100 leaves 0% to the last model, and
      its per-query line divides by zero whatever the usage. */
  lemma FullFirstSliderBreaksBreakdown(u: Usage, model: string, cost: CostResult)
    ensures Shares([100]) == [100, 0]
    ensures CostPerRoutedQuery(u, Route(model, Shares([100])[1]), cost) == Err(DivisionByZero)
  {
    assert Shares([100]) == [100] + [100 - Sum([100])];
  }

  /** The corrected line agrees with the division wherever the division
      succeeds, and reports the route as idle exactly where it fails. */
  lemma RoutedQueryLineAgrees(u: Usage, route: Route, cost: CostResult)
    ensures var line, r := RoutedQueryLine(u, route, cost), CostPerRoutedQuery(u, route, cost);
            && (r.Ok? ==> line == PerQuery(r.value))
            && (r.Err? <==> line == NoQueries)
  {
  }

  // ---------------------------------------------------------------------------
  // Comparing two strategies
  // ---------------------------------------------------------------------------

  /** The signed difference and its percentage of the baseline. */
  datatype Comparison = Comparison(difference: real, percent: real)

  /** `cost_difference = A - B` and `cost_difference / A * 100`: positive when
      the baseline A costs more; the percentage fails on a zero baseline. */
  function Compare(baseline: real, other: real): (r: Result<Comparison>)
    ensures r.Err? <==> baseline == 0.0
    ensures r.Err? ==> r.error == DivisionByZero
    ensures r.Ok? ==> other + r.value.difference == baseline
    ensures r.Ok? ==> r.value.percent * baseline == 100.0 * r.value.difference
  {
    if baseline == 0.0 then Err(DivisionByZero)
    else
      var difference := baseline - other;
      Ok(Comparison(difference, difference / baseline * 100.0))
  }

  /** A strategy: one model for every query, or a classifier routing to models. */
  datatype Plan = SingleModel(model: string) | Routed(classifier: string, routes: seq<Route>)

  /** Every model a plan names is in the table. */
  predicate PlanKnown(table: PriceTable, plan: Plan) {
    match plan
    case SingleModel(model) => model in table
    case Routed(classifier, routes) => AllKnown(table, routes) && classifier in table
  }

  /** The daily total cost of a plan, the figure the comparison views set side by side. */
  function DailyTotal(table: PriceTable, u: Usage, plan: Plan): (r: Result<real>)
    ensures r.Ok? <==> PlanKnown(table, plan)
    ensures plan.SingleModel? && r.Err? ==> r.error == UnknownModel(plan.model)
    ensures plan.Routed? && r.Err? && !AllKnown(table, plan.routes) ==> r.error == RoutedCosts(table, u, plan.routes).error
    ensures plan.Routed? && r.Err? && AllKnown(table, plan.routes) ==> r.error == UnknownModel(plan.classifier)
    ensures plan.SingleModel? && r.Ok? ==> r.value == SingleDaily(table, plan.model, u).value.totalCost
    ensures plan.Routed? && r.Ok? ==>
              r.value == ClassifierCost(table, plan.classifier, u.queriesPerDay).value.totalCost
                         + TotalCost(RoutedCosts(table, u, plan.routes).value)
  {
    match plan
    case SingleModel(model) =>
      var c :- SingleDaily(table, model, u);
      Ok(c.totalCost)
    case Routed(classifier, routes) =>
      var m :- MultiDaily(table, u, classifier, routes);
      Ok(m.total)
  }

  /** Compare plan A (the baseline) with plan B: A is priced first, so A's
      error wins; then B's; then a zero baseline makes the percentage fail. */
  function ComparePlans(table: PriceTable, u: Usage, a: Plan, b: Plan): (r: Result<Comparison>)
    ensures var ta, tb := DailyTotal(table, u, a), DailyTotal(table, u, b);
            r.Ok? <==> ta.Ok? && tb.Ok? && ta.value != 0.0
    ensures var ta := DailyTotal(table, u, a);
            ta.Err? ==> r.Err? && r.error == ta.error
    ensures var ta, tb := DailyTotal(table, u, a), DailyTotal(table, u, b);
            ta.Ok? && tb.Err? ==> r.Err? && r.error == tb.error
    ensures var ta, tb := DailyTotal(table, u, a), DailyTotal(table, u, b);
            ta.Ok? && tb.Ok? && ta.value == 0.0 ==> r == Err(DivisionByZero)
    ensures var ta, tb := DailyTotal(table, u, a), DailyTotal(table, u, b);
            r.Ok? ==> r == Compare(ta.value, tb.value)
  {
    var ta, tb := DailyTotal(table, u, a), DailyTotal(table, u, b);
    if ta.Err? then Err(ta.error)
    else if tb.Err? then Err(tb.error)
    else Compare(ta.value, tb.value)
  }

  // ---------------------------------------------------------------------------
  // Properties
  // ---------------------------------------------------------------------------

  function RoutedQueries(queriesPerDay: nat, routes: seq<Route>): int
    decreases |routes|
  {
    if |routes| == 0 then 0
    else RoutedQueries(queriesPerDay, routes[..|routes| - 1]) + ModelQueries(queriesPerDay, routes[|routes| - 1].share)
  }

  lemma {:induction false} RoutedQueriesBound(queriesPerDay: nat, routes: seq<Route>)
    requires forall i :: 0 <= i < |routes| ==> routes[i].share >= 0
    ensures 0 <= RoutedQueries(queriesPerDay, routes)
    ensures 100 * RoutedQueries(queriesPerDay, routes) <= queriesPerDay * Sum(SharesOf(routes))
    decreases |routes|
  {
    if |routes| > 0 {
      var n := |routes|;
      var init := routes[..n - 1];
      RoutedQueriesBound(queriesPerDay, init);
      assert SharesOf(routes)[..n - 1] == SharesOf(init);
      var last := routes[n - 1].share;
      assert Sum(SharesOf(routes)) == Sum(SharesOf(init)) + last;
      assert queriesPerDay * Sum(SharesOf(routes)) == queriesPerDay * Sum(SharesOf(init)) + queriesPerDay * last;
    }
  }

  /** With the shares a split, the routed models together never handle more
      queries than arrive in a day (truncation can only lose queries). */
  lemma RoutedQueriesWithinDaily(queriesPerDay: nat, routes: seq<Route>)
    requires IsSplit(SharesOf(routes))
    ensures 0 <= RoutedQueries(queriesPerDay, routes) <= queriesPerDay
  {
    RoutedQueriesBound(queriesPerDay, routes);
  }

  /** An even two-way split of 100 queries sends 50 to each model, and the
      classifier is charged 10000 input and 5000 output tokens regardless. */
  lemma EvenSplitExample(table: PriceTable, classifier: string)
    ensures ModelQueries(100, 50) == 50
    ensures ClassifierCost(table, classifier, 100) == CalculateCost(table, classifier, 10000, 5000)
  {
  }

  /** A routed model's output tokens never exceed the single-model output of
      the same model, so neither does its output cost when prices are non-negative. */
  lemma RoutedOutputAtMostSingle(table: PriceTable, u: Usage, route: Route)
    requires route.model in table
    requires table[route.model].input >= 0.0 && table[route.model].output >= 0.0
    requires 0 <= route.share <= 100
    ensures RoutedModelCost(table, u, route).value.outputCost <= SingleDaily(table, route.model, u).value.outputCost
  {
    var q := ModelQueries(u.queriesPerDay, route.share);
    ModelQueriesAtMostDaily(u.queriesPerDay, route.share);
    var perQuery := OutputTokensPerQuery(u);
    assert perQuery * q <= perQuery * u.queriesPerDay;
    assert RoutedModelCost(table, u, route)
        == CalculateCost(table, route.model, DailyInputTokens(u), perQuery * q);
    assert SingleDaily(table, route.model, u)
        == CalculateCost(table, route.model, DailyInputTokens(u), perQuery * u.queriesPerDay);
    CostIsMonotone(table, route.model, DailyInputTokens(u), perQuery * q,
                   DailyInputTokens(u), perQuery * u.queriesPerDay);
  }

  /** A share between 0 and 100 percent gets between none and all of the day's queries. */
  lemma ModelQueriesAtMostDaily(queriesPerDay: nat, share: int)
    requires 0 <= share <= 100
    ensures 0 <= ModelQueries(queriesPerDay, share) <= queriesPerDay
  {
    assert queriesPerDay * share <= queriesPerDay * 100;
  }

  /** Routing everything to one model costs that model's single-model daily
      cost plus the classifier: the classifier is the whole overhead. */
  lemma OneRouteIsSinglePlusClassifier(table: PriceTable, u: Usage, classifier: string, model: string)
    requires classifier in table && model in table
    ensures var m := MultiDaily(table, u, classifier, [Route(model, 100)]);
            && m.Ok?
            && m.value.total == ClassifierCost(table, classifier, u.queriesPerDay).value.totalCost
                                + SingleDaily(table, model, u).value.totalCost
  {
    var routes := [Route(model, 100)];
    assert AllKnown(table, routes);
    assert ModelQueries(u.queriesPerDay, 100) == u.queriesPerDay;
    var m := MultiDaily(table, u, classifier, routes).value;
    assert RoutedModelCost(table, u, routes[0]) == SingleDaily(table, model, u);
    assert m.routes[0] == SingleDaily(table, model, u).value;
    assert m.routes[1..] == [];
    assert TotalCost(m.routes) == m.routes[0].totalCost;
  }

  /** The sum over two lists of costs is the sum of their sums, so the order
      in which the routes are added up does not matter. */
  lemma {:induction false} TotalCostConcat(a: seq<CostResult>, b: seq<CostResult>)
    ensures TotalCost(a + b) == TotalCost(a) + TotalCost(b)
    decreases |a|
  {
    if |a| > 0 {
      assert (a + b)[0] == a[0];
      assert (a + b)[1..] == a[1..] + b;
      TotalCostConcat(a[1..], b);
    } else {
      assert a + b == b;
    }
  }

  /** With non-negative prices and shares, a routed strategy costs at least its
      classifier overhead. */
  lemma MultiAtLeastClassifier(table: PriceTable, u: Usage, classifier: string, routes: seq<Route>)
    requires AllKnown(table, routes) && classifier in table
    requires forall m :: m in table ==> table[m].input >= 0.0 && table[m].output >= 0.0
    requires forall i :: 0 <= i < |routes| ==> routes[i].share >= 0
    ensures MultiDaily(table, u, classifier, routes).value.total
            >= ClassifierCost(table, classifier, u.queriesPerDay).value.totalCost
  {
    var m := MultiDaily(table, u, classifier, routes).value;
    var costs := m.routes;
    forall i | 0 <= i < |costs|
      ensures costs[i].totalCost >= 0.0
    {
      assert RoutedModelCost(table, u, routes[i]) == Ok(costs[i]);
      RoutedModelCostNonNegative(table, u, routes[i]);
    }
  }

  lemma RoutedModelCostNonNegative(table: PriceTable, u: Usage, route: Route)
    requires route.model in table
    requires table[route.model].input >= 0.0 && table[route.model].output >= 0.0
    requires route.share >= 0
    ensures RoutedModelCost(table, u, route).value.totalCost >= 0.0
  {
    var q := ModelQueries(u.queriesPerDay, route.share);
    assert OutputTokensPerQuery(u) * q >= 0;
    CostIsNonNegative(table, route.model, DailyInputTokens(u), OutputTokensPerQuery(u) * q);
  }

  /** A single-model plan's daily total in closed form: every query pays its
      input tokens and its truncated output tokens at the model's prices. */
  lemma SingleTotalClosedForm(table: PriceTable, u: Usage, model: string)
    requires model in table
    ensures DailyTotal(table, u, SingleModel(model)).value * TokensPerMillion
            == u.queriesPerDay as real * (u.avgInputTokens as real * table[model].input
                                          + OutputTokensPerQuery(u) as real * table[model].output)
  {
    var one := CalculateCost(table, model, u.avgInputTokens, OutputTokensPerQuery(u)).value;
    var q := u.queriesPerDay as real;
    assert DailyTotal(table, u, SingleModel(model)).value == q * one.totalCost;
    assert one.totalCost * TokensPerMillion == one.inputCost * TokensPerMillion + one.outputCost * TokensPerMillion;
    assert (q * one.totalCost) * TokensPerMillion == q * (one.totalCost * TokensPerMillion);
  }

  /** Swapping the two sides negates the difference. */
  lemma CompareAntisymmetric(a: real, b: real)
    requires a != 0.0 && b != 0.0
    ensures Compare(a, b).value.difference == -Compare(b, a).value.difference
  {
  }

  /** A positive difference means the baseline costs more; zero means equal cost. */
  lemma CompareSign(a: real, b: real)
    requires a != 0.0
    ensures Compare(a, b).value.difference > 0.0 <==> a > b
    ensures Compare(a, b).value.difference == 0.0 <==> a == b
  {
  }

  /** Against a positive baseline and a non-negative alternative, the saving is
      at most 100 percent, and it is non-negative exactly when the alternative
      is no dearer. */
  lemma ComparePercentBounds(a: real, b: real)
    requires a > 0.0 && b >= 0.0
    ensures Compare(a, b).value.percent <= 100.0
    ensures Compare(a, b).value.percent >= 0.0 <==> b <= a
  {
    var x := Compare(a, b).value.percent - 100.0;
    assert x * a == -100.0 * b;
    assert x <= 0.0;
    assert x >= -100.0 <==> b <= a by {
      assert (x + 100.0) * a == 100.0 * (a - b);
    }
  }

  /** Comparing B with A instead of A with B negates the difference, for any two plans. */
  lemma ComparePlansAntisymmetric(table: PriceTable, u: Usage, a: Plan, b: Plan)
    ensures var ta, tb := DailyTotal(table, u, a), DailyTotal(table, u, b);
            ta.Ok? && ta.value != 0.0 && tb.Ok? && tb.value != 0.0 ==>
              ComparePlans(table, u, a, b).value.difference == -ComparePlans(table, u, b, a).value.difference
  {
    var ta, tb := DailyTotal(table, u, a), DailyTotal(table, u, b);
    if ta.Ok? && ta.value != 0.0 && tb.Ok? && tb.value != 0.0 {
      CompareAntisymmetric(ta.value, tb.value);
    }
  }
}

=== FILE: token_calculator.dfy ===
/**
  The heuristic token estimator of `estimate_tokens`.

  The estimate is a weighted sum over character classes of the stripped text:
  each maximal word run is weighted by its length, each maximal whitespace run
  and each maximal digit run counts once, and punctuation and "special"
  characters count once per character. Every weight of the source is a
  multiple of 0.05, so the sum is kept exactly in integer twentieths of a token
  and rounded the way Python's `round` does (to nearest, ties to even).
*/
module TokenCalculator {

  // ---------------------------------------------------------------------------
  // Character classes (ASCII readings of the regular-expression classes)
  // ---------------------------------------------------------------------------

  /** `\s` and `str.strip`'s notion of whitespace on ASCII: tab, line feed,
      vertical tab, form feed, carriage return, the separators 0x1C-0x1F and space. */
  predicate IsSpace(c: char): (b: bool)
    ensures b <==> c in {' ', '\t', '\n', '\U{0B}', '\U{0C}', '\r', '\U{1C}', '\U{1D}', '\U{1E}', '\U{1F}'}
  {
    c == ' ' || '\t' <= c <= '\r' || '\U{1C}' <= c <= '\U{1F}'
  }

  /** `\d` on ASCII. */
  predicate IsDigit(c: char): (b: bool)
    ensures b <==> c in {'0', '1', '2', '3', '4', '5', '6', '7', '8', '9'}
  {
    '0' <= c <= '9'
  }

  predicate IsLetter(c: char) {
    'a' <= c <= 'z' || 'A' <= c <= 'Z'
  }

  /** `\w` on ASCII: letters, digits and the underscore; none of them is
      whitespace or punctuation. */
  predicate IsWordChar(c: char): (b: bool)
    ensures b ==> !IsSpace(c) && !IsPunctuation(c)
    ensures IsDigit(c) || c == '_' ==> b
  {
    IsLetter(c) || IsDigit(c) || c == '_'
  }

  /** The class `[.,!?;:"]`. */
  predicate IsPunctuation(c: char): (b: bool)
    ensures b <==> c in {'.', ',', '!', '?', ';', ':', '"'}
  {
    c in ".,!?;:\""
  }

  /** The class `[^a-zA-Z0-9\s.,!?;:"]`: everything not matched by the classes above
      except the underscore, which is both a word character and a special one. */
  predicate IsSpecial(c: char): (b: bool)
    ensures b <==> !IsSpace(c) && !IsPunctuation(c) && (!IsWordChar(c) || c == '_')
    ensures b && IsWordChar(c) <==> c == '_'
  {
    !IsLetter(c) && !IsDigit(c) && !IsSpace(c) && !IsPunctuation(c)
  }

  /** Every character falls in at least one class, so every character of a
      text adds to its weight. */
  lemma EveryCharacterIsClassified(c: char)
    ensures IsSpace(c) || IsWordChar(c) || IsPunctuation(c) || IsSpecial(c)
  {
  }

  // ---------------------------------------------------------------------------
  // Stripping
  // ---------------------------------------------------------------------------

  /** Number of whitespace characters at the end of `s`. */
  function TrailingSpaces(s: string): (n: nat)
    ensures n <= |s|
    ensures forall i :: |s| - n <= i < |s| ==> IsSpace(s[i])
    ensures n < |s| ==> !IsSpace(s[|s| - n - 1])
    decreases |s|
  {
    if |s| > 0 && IsSpace(s[|s| - 1]) then 1 + TrailingSpaces(s[..|s| - 1]) else 0
  }

  /** `r` is `s` with the first `a` characters and some trailing ones removed,
      and every removed character is whitespace. */
  predicate TrimmedFrom(s: string, r: string, a: nat) {
    && a + |r| <= |s|
    && s[a..a + |r|] == r
    && (forall i :: 0 <= i < a ==> IsSpace(s[i]))
    && (forall i :: a + |r| <= i < |s| ==> IsSpace(s[i]))
  }

  /** `str.strip()`: the slice of `s` left once leading and trailing whitespace
      is removed, which is empty exactly when `s` is all whitespace. */
  function Strip(s: string): (r: string)
    ensures TrimmedFrom(s, r, RunLength(s, IsSpace))
    ensures |r| > 0 ==> !IsSpace(r[0]) && !IsSpace(r[|r| - 1])
    ensures |r| == 0 <==> forall i :: 0 <= i < |s| ==> IsSpace(s[i])
  {
    var a := RunLength(s, IsSpace);
    var e := |s| - TrailingSpaces(s);
    if e <= a then [] else s[a..e]
  }

  // ---------------------------------------------------------------------------
  // re.findall over one character class, and per-character counts
  // ---------------------------------------------------------------------------

  /** Length of the longest prefix of `s` whose characters all satisfy `p`. */
  function RunLength(s: string, p: char -> bool): (n: nat)
    ensures n <= |s|
    ensures forall i :: 0 <= i < n ==> p(s[i])
    ensures n < |s| ==> !p(s[n])
    decreases |s|
  {
    if |s| > 0 && p(s[0]) then 1 + RunLength(s[1..], p) else 0
  }

  /** The non-overlapping matches, left to right, of "one or more characters
      satisfying `p`": the maximal runs of `p`. With `p` the word class this is
      `\b\w+\b`, whose boundaries hold at the ends of every maximal run. */
  function FindAll(s: string, p: char -> bool): (runs: seq<string>)
    ensures forall k :: 0 <= k < |runs| ==> |runs[k]| > 0
    ensures forall k, j :: 0 <= k < |runs| && 0 <= j < |runs[k]| ==> p(runs[k][j])
    decreases |s|
  {
    if |s| == 0 then []
    else if !p(s[0]) then FindAll(s[1..], p)
    else
      var n := RunLength(s, p);
      [s[..n]] + FindAll(s[n..], p)
  }

  /** Number of characters of `s` satisfying `p` (`len(re.findall(class, s))`). */
  function Count(s: string, p: char -> bool): (n: nat)
    ensures n <= |s|
    ensures n == 0 <==> forall i :: 0 <= i < |s| ==> !p(s[i])
    decreases |s|
  {
    if |s| == 0 then 0
    else
      assert forall i :: 1 <= i < |s| ==> s[i] == s[1..][i - 1];
      (if p(s[0]) then 1 else 0) + Count(s[1..], p)
  }

  /** The characters of `s` satisfying `p`, in their order in `s`. */
  function Filter(s: string, p: char -> bool): (r: string)
    ensures |r| == Count(s, p)
    decreases |s|
  {
    if |s| == 0 then [] else (if p(s[0]) then [s[0]] else []) + Filter(s[1..], p)
  }

  /** The runs written one after the other. */
  function Concat(runs: seq<string>): string
    decreases |runs|
  {
    if |runs| == 0 then [] else runs[0] + Concat(runs[1..])
  }

  /** Sum of `w` applied to the length of each run. */
  function RunsWeight(runs: seq<string>, w: nat -> nat): nat
    decreases |runs|
  {
    if |runs| == 0 then 0 else w(|runs[0]|) + RunsWeight(runs[1..], w)
  }

  /** Total number of characters in the runs. */
  function TotalLength(runs: seq<string>): nat
    decreases |runs|
  {
    if |runs| == 0 then 0 else |runs[0]| + TotalLength(runs[1..])
  }

  // ---------------------------------------------------------------------------
  // The weighted sum, in twentieths of a token
  // ---------------------------------------------------------------------------

  const Scale: nat := 20              // twentieths per token
  const ShortWordWeight: nat := 10    // a word of at most 2 characters: 0.5
  const MediumWordWeight: nat := 20   // a word of 3 or 4 characters: 1
  const LongWordWeightPerChar: nat := 5  // a longer word: len / 4
  const WhitespaceRunWeight: nat := 2 // 0.1 per whitespace run
  const DigitRunWeight: nat := 10     // 0.5 per digit run
  const PunctuationWeight: nat := 6   // 0.3 per punctuation character
  const SpecialWeight: nat := 20      // 1 per special character

  /** A word weighs at least half a token, and between len/4 tokens and
      half a token more. */
  function WordWeight(len: nat): (w: nat)
    ensures ShortWordWeight <= w
    ensures LongWordWeightPerChar * len <= w <= LongWordWeightPerChar * len + ShortWordWeight
  {
    if len <= 2 then ShortWordWeight
    else if len <= 4 then MediumWordWeight
    else LongWordWeightPerChar * len
  }

  /** The unrounded estimate of `s`, times twenty. */
  function Twentieths(s: string): (t: nat)
    ensures |s| == 0 ==> t == 0
    ensures |s| > 0 ==> t >= WhitespaceRunWeight
  {
    RunsWeight(FindAll(s, IsWordChar), WordWeight)
    + WhitespaceRunWeight * |FindAll(s, IsSpace)|
    + DigitRunWeight * |FindAll(s, IsDigit)|
    + PunctuationWeight * Count(s, IsPunctuation)
    + SpecialWeight * Count(s, IsSpecial)
  }

  /** Python's `round(t / 20)`: the nearest integer, and the even one of the two at a tie. */
  function RoundTwentieths(t: nat): (r: nat)
    ensures -10 <= Scale * r - t <= 10
    ensures (Scale * r - t == 10 || Scale * r - t == -10) ==> r % 2 == 0
  {
    var q := t / Scale;
    var rem := t % Scale;
    if rem < 10 then q
    else if rem > 10 then q + 1
    else if q % 2 == 0 then q
    else q + 1
  }

  /** `estimate_tokens`: 0 for the empty string, otherwise the rounded weighted
      sum of the stripped text, never below 1. */
  function EstimateTokens(text: string): (n: nat)
    ensures n == 0 <==> |text| == 0
    ensures var t := Twentieths(Strip(text));
            |text| > 0 && n > 1 ==> -10 <= Scale * n - t <= 10
    ensures var t := Twentieths(Strip(text));
            |text| > 0 && n > 1 && (Scale * n - t == 10 || Scale * n - t == -10) ==> n % 2 == 0
    ensures |text| > 0 && n == 1 ==> Twentieths(Strip(text)) < 30
  {
    if |text| == 0 then 0
    else
      var r := RoundTwentieths(Twentieths(Strip(text)));
      if r < 1 then 1 else r
  }

  // ---------------------------------------------------------------------------
  // One-pass scanners, proved equal to the definitions above
  // ---------------------------------------------------------------------------

  lemma SkipUnmatched(s: string, p: char -> bool, i: nat)
    requires i < |s| && !p(s[i])
    ensures FindAll(s[i..], p) == FindAll(s[i + 1..], p)
  {
    assert s[i..][1..] == s[i + 1..];
  }

  lemma CloseRun(s: string, p: char -> bool, start: nat, i: nat)
    requires start < i < |s|
    requires forall j :: start <= j < i ==> p(s[j])
    requires !p(s[i])
    ensures FindAll(s[start..], p) == [s[start..i]] + FindAll(s[i + 1..], p)
  {
    var t := s[start..];
    var k := i - start;
    assert forall j :: 0 <= j < k ==> t[j] == s[start + j];
    assert t[k] == s[i];
    var n := RunLength(t, p);
    assert n == k;
    assert t[..n] == s[start..i];
    assert t[n..] == s[i..];
    SkipUnmatched(s, p, i);
  }

  lemma FinalRun(s: string, p: char -> bool, start: nat)
    requires start < |s|
    requires forall j :: start <= j < |s| ==> p(s[j])
    ensures FindAll(s[start..], p) == [s[start..]]
  {
    var t := s[start..];
    assert forall j :: 0 <= j < |t| ==> t[j] == s[start + j];
    var n := RunLength(t, p);
    assert n == |t|;
    assert t[..n] == t;
    assert t[n..] == [];
  }

  lemma RunsWeightCons(run: string, runs: seq<string>, w: nat -> nat)
    ensures RunsWeight([run] + runs, w) == w(|run|) + RunsWeight(runs, w)
  {
    assert ([run] + runs)[1..] == runs;
  }

  /** What reading character `i` does to the runs still to be accounted for,
      when the run of `p` read so far starts at `start`: a run is closed when
      it is non-empty, and nothing else changes. */
  lemma ScanStep(s: string, p: char -> bool, w: nat -> nat, start: nat, i: nat)
    requires start <= i < |s|
    requires forall j :: start <= j < i ==> p(s[j])
    requires !p(s[i])
    ensures |FindAll(s[start..], p)| == (if start < i then 1 else 0) + |FindAll(s[i + 1..], p)|
    ensures RunsWeight(FindAll(s[start..], p), w)
            == (if start < i then w(i - start) else 0) + RunsWeight(FindAll(s[i + 1..], p), w)
  {
    var rest := FindAll(s[i + 1..], p);
    if start < i {
      CloseRun(s, p, start, i);
      RunsWeightCons(s[start..i], rest, w);
      assert |[s[start..i]] + rest| == 1 + |rest|;
    } else {
      SkipUnmatched(s, p, i);
    }
  }

  /** The runs left once the scan reaches the end: the open run, if any. */
  lemma ScanEnd(s: string, p: char -> bool, w: nat -> nat, start: nat)
    requires start <= |s|
    requires forall j :: start <= j < |s| ==> p(s[j])
    ensures start < |s| ==> |FindAll(s[start..], p)| == 1 && RunsWeight(FindAll(s[start..], p), w) == w(|s| - start)
    ensures start == |s| ==> |FindAll(s[start..], p)| == 0 && RunsWeight(FindAll(s[start..], p), w) == 0
  {
    if start < |s| {
      FinalRun(s, p, start);
      RunsWeightCons(s[start..], [], w);
    } else {
      assert s[start..] == [];
    }
  }

  /** Reading character `i`: closes the open run at a character outside `p`,
      keeping the runs counted plus the runs still to come unchanged. */
  method ReadChar(s: string, p: char -> bool, w: nat -> nat, start: nat, i: nat, runs: nat, weight: nat)
    returns (start': nat, runs': nat, weight': nat)
    requires start <= i < |s|
    requires forall j :: start <= j < i ==> p(s[j])
    ensures start' <= i + 1
    ensures forall j :: start' <= j < i + 1 ==> p(s[j])
    ensures runs' + |FindAll(s[start'..], p)| == runs + |FindAll(s[start..], p)|
    ensures weight' + RunsWeight(FindAll(s[start'..], p), w) == weight + RunsWeight(FindAll(s[start..], p), w)
  {
    if p(s[i]) {
      return start, runs, weight;
    }
    ScanStep(s, p, w, start, i);
    if start < i {
      return i + 1, runs + 1, weight + w(i - start);
    }
    return i + 1, runs, weight;
  }

  /** One left-to-right pass that counts the maximal runs of `p` and sums their
      weights, closing a run at the first character outside it. */
  method ScanRuns(s: string, p: char -> bool, w: nat -> nat) returns (runs: nat, weight: nat)
    ensures runs == |FindAll(s, p)|
    ensures weight == RunsWeight(FindAll(s, p), w)
  {
    ghost var all := FindAll(s, p);
    runs, weight := 0, 0;
    var start: nat := 0;  // where the run of p-characters ending just before i begins
    var i := 0;
    assert s[0..] == s;
    while i < |s|
      invariant start <= i <= |s|
      invariant forall j :: start <= j < i ==> p(s[j])
      invariant runs + |FindAll(s[start..], p)| == |all|
      invariant weight + RunsWeight(FindAll(s[start..], p), w) == RunsWeight(all, w)
    {
      start, runs, weight := ReadChar(s, p, w, start, i, runs, weight);
      i := i + 1;
    }
    ScanEnd(s, p, w, start);
    if start < |s| {
      runs, weight := runs + 1, weight + w(|s| - start);
    }
  }

  lemma CountStep(s: string, p: char -> bool, i: nat)
    requires i < |s|
    ensures Count(s[i..], p) == (if p(s[i]) then 1 else 0) + Count(s[i + 1..], p)
  {
    assert s[i..][1..] == s[i + 1..];
  }

  /** One pass counting the characters that satisfy `p`. */
  method ScanCount(s: string, p: char -> bool) returns (n: nat)
    ensures n == Count(s, p)
  {
    n := 0;
    var i := 0;
    assert s[0..] == s;
    while i < |s|
      invariant 0 <= i <= |s|
      invariant n + Count(s[i..], p) == Count(s, p)
    {
      CountStep(s, p, i);
      if p(s[i]) {
        n := n + 1;
      }
      i := i + 1;
    }
    assert s[|s|..] == [];
  }

  /** `estimate_tokens` computed the way the source does it: one pass per
      pattern over the stripped text, then the weighted sum and the rounding. */
  method EstimateTokensScan(text: string) returns (n: nat)
    ensures n == EstimateTokens(text)
  {
    if |text| == 0 {
      return 0;
    }
    var s := Strip(text);
    var wordRuns, wordWeight := ScanRuns(s, IsWordChar, WordWeight);
    // Whitespace and digit runs are only counted, so their weight is 0.
    var whitespaceRuns, _ := ScanRuns(s, IsSpace, _ => 0);
    var digitRuns, _ := ScanRuns(s, IsDigit, _ => 0);
    var punctuation := ScanCount(s, IsPunctuation);
    var special := ScanCount(s, IsSpecial);
    var total := wordWeight + WhitespaceRunWeight * whitespaceRuns + DigitRunWeight * digitRuns
                 + PunctuationWeight * punctuation + SpecialWeight * special;
    assert total == Twentieths(s);
    n := RoundTwentieths(total);
    if n < 1 {
      n := 1;
    }
  }

  // ---------------------------------------------------------------------------
  // Properties
  // ---------------------------------------------------------------------------

  lemma {:induction false} CountAllMatch(s: string, p: char -> bool)
    requires forall i :: 0 <= i < |s| ==> p(s[i])
    ensures Count(s, p) == |s|
    decreases |s|
  {
    if |s| > 0 {
      CountAllMatch(s[1..], p);
    }
  }

  lemma {:induction false} NoMatches(s: string, p: char -> bool)
    requires forall i :: 0 <= i < |s| ==> !p(s[i])
    ensures FindAll(s, p) == []
    ensures Count(s, p) == 0
    decreases |s|
  {
    if |s| > 0 {
      NoMatches(s[1..], p);
    }
  }

  lemma {:induction false} FilterConcat(a: string, b: string, p: char -> bool)
    ensures Filter(a + b, p) == Filter(a, p) + Filter(b, p)
    decreases |a|
  {
    if |a| == 0 {
      assert a + b == b;
    } else {
      assert (a + b)[0] == a[0];
      assert (a + b)[1..] == a[1..] + b;
      FilterConcat(a[1..], b, p);
    }
  }

  lemma {:induction false} FilterAllMatch(s: string, p: char -> bool)
    requires forall i :: 0 <= i < |s| ==> p(s[i])
    ensures Filter(s, p) == s
    decreases |s|
  {
    if |s| > 0 {
      FilterAllMatch(s[1..], p);
      assert [s[0]] + s[1..] == s;
    }
  }

  /** Filtering a string that starts with a run of `n` matching characters
      keeps that run whole. */
  lemma FilterRun(s: string, p: char -> bool, n: nat)
    requires n <= |s|
    requires forall i :: 0 <= i < n ==> p(s[i])
    ensures Filter(s, p) == s[..n] + Filter(s[n..], p)
  {
    var run, rest := s[..n], s[n..];
    assert s == run + rest;
    assert forall i :: 0 <= i < |run| ==> p(run[i]);
    FilterConcat(run, rest, p);
    FilterAllMatch(run, p);
  }

  lemma {:induction false} RunsAreFilter(s: string, p: char -> bool)
    ensures Concat(FindAll(s, p)) == Filter(s, p)
    decreases |s|
  {
    if |s| == 0 {
    } else if !p(s[0]) {
      RunsAreFilter(s[1..], p);
      assert Filter(s, p) == [] + Filter(s[1..], p);
    } else {
      var n := RunLength(s, p);
      var runs := FindAll(s[n..], p);
      assert ([s[..n]] + runs)[0] == s[..n];
      assert ([s[..n]] + runs)[1..] == runs;
      RunsAreFilter(s[n..], p);
      FilterRun(s, p, n);
    }
  }

  lemma {:induction false} ConcatLength(runs: seq<string>)
    ensures |Concat(runs)| == TotalLength(runs)
    decreases |runs|
  {
    if |runs| > 0 {
      ConcatLength(runs[1..]);
    }
  }

  /** The runs found by `FindAll`, written one after the other, are exactly
      the characters of `s` matching `p`, in order: no more and no fewer.
      Hence they are also as long together as the per-character count. */
  lemma RunsCoverMatches(s: string, p: char -> bool)
    ensures Concat(FindAll(s, p)) == Filter(s, p)
    ensures TotalLength(FindAll(s, p)) == Count(s, p)
  {
    RunsAreFilter(s, p);
    ConcatLength(FindAll(s, p));
  }

  /** A non-empty text of whitespace only strips to the empty string, every
      count is zero, and the clamp still makes the estimate 1. */
  lemma WhitespaceOnlyIsOneToken(text: string)
    requires |text| > 0
    requires forall i :: 0 <= i < |text| ==> IsSpace(text[i])
    ensures EstimateTokens(text) == 1
  {
    assert Strip(text) == [];
  }

  /** Text without leading or trailing whitespace is left alone by `strip`. */
  lemma StripKeepsTrimmed(s: string)
    requires |s| > 0 && !IsSpace(s[0]) && !IsSpace(s[|s| - 1])
    ensures Strip(s) == s
  {
    assert RunLength(s, IsSpace) == 0;
    assert s[0..] == s;
    assert TrailingSpaces(s) == 0;
  }

  /** A text with no whitespace at either end is estimated from its own weight. */
  lemma TrimmedEstimate(s: string)
    requires |s| > 0 && !IsSpace(s[0]) && !IsSpace(s[|s| - 1])
    ensures EstimateTokens(s) == (var r := RoundTwentieths(Twentieths(s)); if r < 1 then 1 else r)
  {
    StripKeepsTrimmed(s);
  }

  /** A word of letters weighs its length bucket and nothing else. */
  lemma SingleWordTwentieths(s: string)
    requires |s| > 0
    requires forall i :: 0 <= i < |s| ==> IsLetter(s[i])
    ensures Twentieths(s) == WordWeight(|s|)
  {
    SingleRun(s, IsWordChar);
    RunsWeightCons(s, [], WordWeight);
    NoMatches(s, IsSpace);
    NoMatches(s, IsDigit);
    NoMatches(s, IsPunctuation);
    NoMatches(s, IsSpecial);
  }

  /** A single word of letters is estimated by its length bucket alone. */
  lemma SingleWordEstimate(s: string)
    requires |s| > 0
    requires forall i :: 0 <= i < |s| ==> IsLetter(s[i])
    ensures EstimateTokens(s) == (var r := RoundTwentieths(WordWeight(|s|)); if r < 1 then 1 else r)
  {
    StripKeepsTrimmed(s);
    SingleWordTwentieths(s);
  }

  /** "hello" weighs 1.25 tokens and is estimated as 1. */
  lemma HelloIsOneToken()
    ensures EstimateTokens("hello") == 1
  {
    SingleWordEstimate("hello");
  }

  /** Ties round to even: ten letters weigh 2.5 tokens and give 2. */
  lemma TieRoundsDownToEven()
    ensures EstimateTokens("abcdefghij") == 2
  {
    SingleWordEstimate("abcdefghij");
  }

  /** Ties round to even: fourteen letters weigh 3.5 tokens and give 4. */
  lemma TieRoundsUpToEven()
    ensures EstimateTokens("abcdefghijklmn") == 4
  {
    var s := "abcdefghijklmn";
    assert forall i :: 0 <= i < |s| ==> IsLetter(s[i]);
    assert WordWeight(|s|) == 70;
    assert RoundTwentieths(70) == 4;
    SingleWordEstimate(s);
  }

  /** Digits count twice: inside their word and again as a digit run. A word of
      letters followed by digits weighs its length bucket plus one digit run. */
  lemma LettersThenDigits(letters: string, digits: string)
    requires |letters| > 0 && |digits| > 0
    requires forall i :: 0 <= i < |letters| ==> IsLetter(letters[i])
    requires forall i :: 0 <= i < |digits| ==> IsDigit(digits[i])
    ensures Twentieths(letters + digits) == WordWeight(|letters| + |digits|) + DigitRunWeight
  {
    var s := letters + digits;
    assert forall i :: 0 <= i < |s| ==> IsWordChar(s[i]);
    SingleRun(s, IsWordChar);
    RunsWeightCons(s, [], WordWeight);
    NoMatches(s, IsSpace);
    NoMatches(s, IsPunctuation);
    NoMatches(s, IsSpecial);
    DigitSuffix(letters, digits);
  }

  /** The only digit run of letters followed by digits is the digits. */
  lemma DigitSuffix(letters: string, digits: string)
    requires |digits| > 0
    requires forall i :: 0 <= i < |letters| ==> IsLetter(letters[i])
    requires forall i :: 0 <= i < |digits| ==> IsDigit(digits[i])
    ensures FindAll(letters + digits, IsDigit) == [digits]
  {
    var s := letters + digits;
    var k := |letters|;
    SkipLeading(s, IsDigit, k);
    assert s[k..] == digits;
    SingleRun(digits, IsDigit);
  }

  /** A non-empty string of characters of `p` is one run of `p`. */
  lemma SingleRun(s: string, p: char -> bool)
    requires |s| > 0
    requires forall i :: 0 <= i < |s| ==> p(s[i])
    ensures FindAll(s, p) == [s]
  {
    assert s[0..] == s;
    FinalRun(s, p, 0);
  }

  lemma {:induction false} SkipLeading(s: string, p: char -> bool, k: nat)
    requires k <= |s|
    requires forall i :: 0 <= i < k ==> !p(s[i])
    ensures FindAll(s, p) == FindAll(s[k..], p)
    decreases k
  {
    if k > 0 {
      SkipLeading(s[1..], p, k - 1);
      assert s[1..][k - 1..] == s[k..];
    }
  }

  /** "abc123" weighs 1.5 + 0.5 = 2 tokens. */
  lemma WordWithDigitsExample()
    ensures EstimateTokens("abc123") == 2
  {
    var letters, digits := "abc", "123";
    assert IsLetter(letters[0]) && IsLetter(letters[1]) && IsLetter(letters[2]);
    assert IsDigit(digits[0]) && IsDigit(digits[1]) && IsDigit(digits[2]);
    LettersThenDigits(letters, digits);
    var s := letters + digits;
    assert s == "abc123";
    TrimmedEstimate(s);
    assert RoundTwentieths(40) == 2;
  }

  /** A run of `p` cannot cross a boundary with a character outside `p` on one side. */
  lemma RunLengthConcat(a: string, b: string, p: char -> bool)
    requires (|a| > 0 && !p(a[|a| - 1])) || (|b| > 0 && !p(b[0]))
    ensures RunLength(a + b, p) == RunLength(a, p)
  {
    var n := RunLength(a, p);
    assert forall i :: 0 <= i < |a| ==> (a + b)[i] == a[i];
    if n == |a| && |b| > 0 {
      assert (a + b)[n] == b[0];
    }
  }

  /** The runs of `a + b` are the runs of `a` followed by those of `b` when the
      boundary has a character outside `p` on one side. */
  lemma {:induction false} FindAllConcat(a: string, b: string, p: char -> bool)
    requires (|a| > 0 && !p(a[|a| - 1])) || (|b| > 0 && !p(b[0]))
    ensures FindAll(a + b, p) == FindAll(a, p) + FindAll(b, p)
    decreases |a|
  {
    if |a| == 0 {
      assert a + b == b;
    } else if !p(a[0]) {
      assert (a + b)[0] == a[0];
      assert (a + b)[1..] == a[1..] + b;
      if |a| == 1 {
        assert a[1..] + b == b;
      } else {
        FindAllConcat(a[1..], b, p);
      }
    } else {
      var n := RunLength(a, p);
      RunLengthConcat(a, b, p);
      assert (a + b)[..n] == a[..n];
      assert (a + b)[n..] == a[n..] + b;
      if n == |a| {
        assert a[n..] + b == b;
      } else {
        FindAllConcat(a[n..], b, p);
      }
    }
  }

  /** A whitespace run counts once whatever its length: two words separated by
      any non-empty gap of whitespace weigh their two buckets plus one run. */
  lemma WhitespaceRunCountsOnce(first: string, gap: string, second: string)
    requires |first| > 0 && |gap| > 0 && |second| > 0
    requires forall i :: 0 <= i < |first| ==> IsLetter(first[i])
    requires forall i :: 0 <= i < |gap| ==> IsSpace(gap[i])
    requires forall i :: 0 <= i < |second| ==> IsLetter(second[i])
    ensures Twentieths(first + gap + second)
            == WordWeight(|first|) + WordWeight(|second|) + WhitespaceRunWeight
  {
    var s := first + gap + second;
    WordsAroundGap(first, gap, second);
    RunsWeightCons(first, [second], WordWeight);
    RunsWeightCons(second, [], WordWeight);
    GapIsOneRun(first, gap, second);
    NoMatches(s, IsDigit);
    NoMatches(s, IsPunctuation);
    NoMatches(s, IsSpecial);
  }

  lemma WordsAroundGap(first: string, gap: string, second: string)
    requires |first| > 0 && |gap| > 0 && |second| > 0
    requires forall i :: 0 <= i < |first| ==> IsLetter(first[i])
    requires forall i :: 0 <= i < |gap| ==> IsSpace(gap[i])
    requires forall i :: 0 <= i < |second| ==> IsLetter(second[i])
    ensures FindAll(first + gap + second, IsWordChar) == [first, second]
  {
    var rest := gap + second;
    assert first + gap + second == first + rest;
    assert !IsWordChar(rest[0]) by {
      assert rest[0] == gap[0];
    }
    FindAllConcat(first, rest, IsWordChar);
    SingleRun(first, IsWordChar);
    GapThenWord(gap, second);
    assert [first] + [second] == [first, second];
  }

  lemma GapThenWord(gap: string, second: string)
    requires |gap| > 0 && |second| > 0
    requires forall i :: 0 <= i < |gap| ==> IsSpace(gap[i])
    requires forall i :: 0 <= i < |second| ==> IsLetter(second[i])
    ensures FindAll(gap + second, IsWordChar) == [second]
  {
    FindAllConcat(gap, second, IsWordChar);
    NoMatches(gap, IsWordChar);
    SingleRun(second, IsWordChar);
  }

  lemma GapIsOneRun(first: string, gap: string, second: string)
    requires |first| > 0 && |gap| > 0 && |second| > 0
    requires forall i :: 0 <= i < |first| ==> IsLetter(first[i])
    requires forall i :: 0 <= i < |gap| ==> IsSpace(gap[i])
    requires forall i :: 0 <= i < |second| ==> IsLetter(second[i])
    ensures FindAll(first + gap + second, IsSpace) == [gap]
  {
    assert (first + gap)[|first + gap| - 1] == gap[|gap| - 1];
    FindAllConcat(first + gap, second, IsSpace);
    FindAllConcat(first, gap, IsSpace);
    NoMatches(first, IsSpace);
    SingleRun(gap, IsSpace);
    NoMatches(second, IsSpace);
  }

  /** Punctuation counts per character, not per run. */
  lemma PunctuationPerCharacter(s: string)
    requires forall i :: 0 <= i < |s| ==> IsPunctuation(s[i])
    ensures Twentieths(s) == PunctuationWeight * |s|
  {
    NoMatches(s, IsWordChar);
    NoMatches(s, IsSpace);
    NoMatches(s, IsDigit);
    NoMatches(s, IsSpecial);
    CountAllMatch(s, IsPunctuation);
  }

  /** Special characters other than the underscore count per character and nothing else. */
  lemma SpecialPerCharacter(s: string)
    requires forall i :: 0 <= i < |s| ==> IsSpecial(s[i]) && s[i] != '_'
    ensures Twentieths(s) == SpecialWeight * |s|
  {
    NoMatches(s, IsWordChar);
    NoMatches(s, IsSpace);
    NoMatches(s, IsDigit);
    NoMatches(s, IsPunctuation);
    CountAllMatch(s, IsSpecial);
  }

  /** Underscores count twice: as one word of their length and once each as a special character. */
  lemma UnderscoresCountTwice(s: string)
    requires |s| > 0
    requires forall i :: 0 <= i < |s| ==> s[i] == '_'
    ensures Twentieths(s) == WordWeight(|s|) + SpecialWeight * |s|
  {
    SingleRun(s, IsWordChar);
    RunsWeightCons(s, [], WordWeight);
    NoMatches(s, IsSpace);
    NoMatches(s, IsDigit);
    NoMatches(s, IsPunctuation);
    CountAllMatch(s, IsSpecial);
  }
}
